=== FILE: README.md ===
# Blog API: validation and an owner-scoped post/comment store

This project models the logic of a small blog back end built on Django REST
Framework. Users register. Authenticated users then create, read, update and delete
their own posts, and the comments on those posts.

The model has two parts.

- **Field validation** (`Serializers`). Each per-field validator is a total decision on
  a string, or on a value plus the set of existing keys. It returns the value unchanged
  or gives exactly one message. The serializers run the validator of every field in a
  request body and report all failures together, in a map keyed by field name. The
  read-only fields (`author`, `created_at`) never reach the validated data. A
  registration is answered by the registration serializer itself, whose fields are
  `username` and the write-only `password`, so the answer is the username alone.
- **The store and its view sets** (`Models`, `Views`). The class `Views.Blog` holds
  three things: the registered users (id to username), the posts and comments as
  sequences in insertion order, and one id counter per table. Reads are functions over
  the store. Writes are methods on it. Every read and write of a single record goes
  through the actor's own records. Every create takes the author from the request, never
  from the body. Deleting a post cascades to its comments. Deleting a user cascades to
  the user's posts and comments, and through the post cascade to other users' comments
  on those posts.

The class invariant `Blog.Valid` holds after every operation. It says:

- ids are unique and increase in store order, and every id lies below its table's
  counter, so no id is handed out twice (every write states what happens to the counters);
- every foreign key resolves;
- every stored text fits its column;
- usernames are unique.

Every write that changes posts proves `PostsKeepOrigin`, and every write that changes
comments proves `CommentsKeepOrigin`. A write states any table it does not change equal to
its old value. So no record ever receives an author or a creation stamp other than the
ones it was created with.

Users are opaque natural-number ids. The creation stamp is an opaque number that the
caller passes in, because the clock is not modelled. Strings are `seq<char>`, and their
length is `|s|`. Authentication is a parameter: the actor is either `None` or a
registered user's id. The requirement `Blog.Known` states that the authentication layer
only ever yields a registered user.

The model follows the code. Four of its consequences are worth spelling out, and two
of them disagree with the repository's tests:

- **A comment update can change the comment's post.** `post` is a writable field of
  CommentSerializer (blog_api/blog/blog_serializers.py:15-16), so
  `Views.Blog.UpdateComment` may point a comment at any existing post. The comment's
  author and creation stamp never change.
- **The comments action on a post the actor did not write is not in scope.** The action
  reaches the post through `get_object` on the author-filtered queryset
  (blog_api/blog/blog_views.py:25-26, 33), so another user's post is not found, and
  neither is a deleted one. The test at blog_api/blog/blog_tests.py:247-249 instead
  expects another user to get 200 with an empty list. `Views.IsolationScenario` proves
  the code's outcome.
- **A post listing nests every comment on the post.** The nested `comments` field
  (blog_api/blog/blog_serializers.py:32) is not filtered by author, so it includes
  other users' comments on the actor's own posts.
- **The nested comment create still needs and validates a `post` in the body.** `post`
  is a required writable field of CommentSerializer (blog_api/blog/blog_serializers.py:15-16),
  and `validate_post` checks it against all posts (:25-28). The view then stores the
  post from the URL instead (blog_api/blog/blog_views.py:44). The test at
  blog_api/blog/blog_tests.py:161-169 sends only `text`. Against this code, that body
  fails with a `post` error. The model's comment bodies always carry a `post`, so the
  missing-field error is not modelled (see "Left out").

## Model

| member | source | states |
|---|---|---|
| `Serializers.ValidateText` | blog_api/blog/blog_serializers.py:18-23 | accepts exactly the texts of length 1..500 (the Comment.text column limit) and returns them unchanged; an empty text gets only the "empty" message, a longer one only the "exceed" message |
| `Serializers.ValidatePost` | blog_api/blog/blog_serializers.py:25-28 | accepts a post reference exactly when it names an existing post, unchanged; otherwise "Post not found." |
| `Serializers.ValidateTitle` | blog_api/blog/blog_serializers.py:39-44 | accepts exactly the titles of length 1..100 (the Post.title column limit), unchanged; "empty" below 1, "exceed" above 100 |
| `Serializers.ValidateContent` | blog_api/blog/blog_serializers.py:46-51 | accepts exactly the contents of length 1..1000 (the Post.content column limit), unchanged; "empty" below 1, "exceed" above 1000 |
| `Serializers.ValidateUsername` | blog_api/blog/blog_serializers.py:61-68 | rejects iff the length is below 3, above 50, or the name is taken, otherwise returns it unchanged; the length messages win over the uniqueness message |
| `Serializers.ValidatePassword` | blog_api/blog/blog_serializers.py:55 | accepts exactly the passwords of at least 6 characters |
| `Serializers.ValidatePostInput` | blog_api/blog/blog_serializers.py:31-51 | a create body is valid iff both title and content pass; the valid data holds only title and content; on failure every failing field, and only those, is a key with its validator's message |
| `Serializers.ValidatePostPatch` | blog_api/blog/blog_serializers.py:31-51 | an update body is valid iff every supplied field passes; an absent field is never reported; the changes hold only the writable fields |
| `Serializers.ValidateCommentInput` | blog_api/blog/blog_serializers.py:12-28 | a comment body is valid iff its text passes and its post exists; the errors of text and post are reported together, keyed by field |
| `Serializers.ValidateCommentPatch` | blog_api/blog/blog_serializers.py:12-28 | a comment update is valid iff every supplied field passes; each failing supplied field is reported with its validator's message; an absent field is never reported; the changes hold only text and post |
| `Serializers.ValidateRegistration` | blog_api/blog/blog_serializers.py:54-68 | registration data is valid iff the username passes (length and uniqueness) and the password has at least 6 characters; username and password errors are reported together |
| `Serializers.PostReadOnlyFieldsIgnored` | blog_api/blog/blog_serializers.py:37 | what a client sends for `author` or `created_at` of a post never changes the outcome of validation |
| `Serializers.CommentReadOnlyFieldsIgnored` | blog_api/blog/blog_serializers.py:16 | what a client sends for `author` or `created_at` of a comment never changes the outcome of validation |
| `Serializers.EmptyTitleAndLongContentBothReported` | blog_api/blog/blog_tests.py:95-102 | an empty title with a 1001-character content yields exactly the `title` and `content` errors, together |
| `Serializers.DuplicateUsernameRejected` | blog_api/blog/blog_serializers.py:66-67 | registering a taken username fails with a `username` error, whatever the password |
| `Serializers.UsernameLengthBoundary` | blog_api/blog/blog_serializers.py:62-63 | "ab" is refused with only the too-short username message; a free "abc" with a long enough password is accepted |
| `Models.DeletePostCascade` | blog_api/blog/blog_models.py:28-32 | deleting a post removes that post and exactly the comments whose post it is; every other post and comment stays |
| `Models.DeleteUserCascade` | blog_api/blog/blog_models.py:9-37 | deleting a user removes exactly their posts, their comments, and every comment (by anyone) on one of their posts |
| `Models.DeletePostLeavesNoOrphans` | blog_api/blog/blog_models.py:28-32 | after the post cascade every foreign key still resolves and no comment names the deleted post |
| `Models.DeleteUserLeavesNoOrphans` | blog_api/blog/blog_models.py:33-37 | after the user cascade every foreign key resolves against the remaining users and posts |
| `Models.DeletePostKeepsOrder` | blog_api/blog/blog_models.py:28-32 | the post cascade keeps the surviving posts and comments in store (id) order, so ids stay unique |
| `Models.DeleteUserKeepsOrder` | blog_api/blog/blog_models.py:9-37 | the user cascade keeps the surviving posts and comments in store (id) order, so ids stay unique |
| `Models.AddPostKeepsIntegrity` | blog_api/blog/blog_models.py:9-13 | adding a post by a registered user keeps every foreign key resolved |
| `Models.AddCommentKeepsIntegrity` | blog_api/blog/blog_models.py:28-37 | adding a comment by a registered user on a stored post keeps every foreign key resolved |
| `Models.ReplacePostKeepsIntegrity` | blog_api/blog/blog_models.py:9-13 | rewriting a post in place with the same id and author keeps every foreign key resolved |
| `Models.ReplaceCommentKeepsIntegrity` | blog_api/blog/blog_models.py:28-37 | rewriting a comment in place, same author, pointing at a stored post, keeps every foreign key resolved |
| `Models.ReplacedPostKeepsOrigin` | blog_api/blog/blog_models.py:8-13 | an in-place update that keeps id, author and creation stamp gives no post a new author or stamp |
| `Models.ReplacedCommentKeepsOrigin` | blog_api/blog/blog_models.py:27-37 | the same for comments |
| `Models.AddedPostKeepsOrigin` | blog_api/blog/blog_models.py:8-13 | adding a post under a fresh id gives no existing post a new author or stamp |
| `Models.AddedCommentKeepsOrigin` | blog_api/blog/blog_models.py:27-37 | adding a comment under a fresh id gives no existing comment a new author or stamp |
| `Models.KeptPostsKeepOrigin` | blog_api/blog/blog_models.py:8-13 | keeping a subset of the posts unchanged (a deletion) gives no post a new author or stamp |
| `Models.KeptCommentsKeepOrigin` | blog_api/blog/blog_models.py:27-37 | the same for comments |
| `Common.FilterCounts` | blog_api/blog/blog_views.py:25-26 | a queryset filter keeps each matching record exactly as often as the table holds it, and drops every other record |
| `Common.FilterKeepsIncreasing` | blog_api/blog/blog_views.py:25-26 | a queryset filter over a table in id order returns its records in id order |
| `Views.PostsBy` | blog_api/blog/blog_views.py:25-26 | the actor's post queryset holds exactly the stored posts whose author is the actor, in store order without repeats |
| `Views.CommentsBy` | blog_api/blog/blog_views.py:54-55 | the actor's comment queryset holds exactly the stored comments whose author is the actor, in store order without repeats |
| `Views.CommentsOnBy` | blog_api/blog/blog_views.py:35-38 | the comments action's queryset holds exactly the comments on that post written by the actor, in store order without repeats |
| `Views.CommentsOn` | blog_api/blog/blog_serializers.py:32 | a post's nested comments are exactly the comments whose post it is, in store order without repeats |
| `Views.Render` | blog_api/blog/blog_serializers.py:32 | a rendered post carries the post and exactly its comments, whoever wrote them, in store order |
| `Views.RenderAll` | blog_api/blog/blog_serializers.py:32-36 | a post list renders one view per post, in order, each with exactly that post's comments |
| `Views.AcceptedValuesFitColumns` | blog_api/blog/blog_models.py:6-26 | whatever the post and comment serializers accept, on create or update, makes a record that fits the 100, 1000 and 500 character columns |
| `Views.Blog.Valid` | blog_api/blog/blog_models.py:6-37 | the store's invariant: ids unique, increasing and below their counter; every post's and comment's author a registered user and every comment's post a stored post; every text within its column; usernames unique |
| `Views.ApplyPostChanges` | blog_api/blog/blog_serializers.py:36-37 | an update changes only the supplied title and content; id, author and creation stamp stay |
| `Views.ApplyCommentChanges` | blog_api/blog/blog_serializers.py:15-16 | an update changes only the supplied text and post; id, author and creation stamp stay |
| `Views.Blog.OwnedPost` | blog_api/blog/blog_views.py:25-33 | the author-scoped lookup finds post `id` iff the actor wrote a post with that id, and then at its index |
| `Views.Blog.OwnedComment` | blog_api/blog/blog_views.py:54-55 | the author-scoped lookup finds comment `id` iff the actor wrote a comment with that id |
| `Views.Blog.ListPosts` | blog_api/blog/blog_views.py:25-26 | unauthenticated is refused; otherwise every listed post is the actor's, every post of the actor is listed once, in store order, and each carries exactly its comments in store order |
| `Views.Blog.RetrievePost` | blog_api/blog/blog_views.py:20-26 | a post is shown iff the actor wrote it; a post by someone else or no post is not in scope |
| `Views.Blog.CreatePost` | blog_api/blog/blog_views.py:28-29 | a valid body appends exactly one post, with the next id, the body's title and content, the given stamp and the actor as author, whatever the body says; an invalid body returns the field errors and changes nothing |
| `Views.Blog.UpdatePost` | blog_api/blog/blog_views.py:20-26 | only the actor's own post can be updated; it takes the supplied fields in place and keeps id, author and stamp; a failed update changes nothing |
| `Views.Blog.DeletePost` | blog_api/blog/blog_views.py:20-26 | only the actor's own post can be deleted; its deletion is exactly the post cascade |
| `Views.Blog.PostCommentsList` | blog_api/blog/blog_views.py:31-40 | on the actor's own post the list holds exactly the comments on that post by the actor, each once, in store order; any other post id is not in scope |
| `Views.Blog.PostCommentsCreate` | blog_api/blog/blog_views.py:41-46 | on the actor's own post a valid body appends exactly one comment whose post is the URL's post and whose author is the actor; invalid data returns the errors and changes nothing; a post out of scope creates nothing |
| `Views.Blog.ListComments` | blog_api/blog/blog_views.py:54-55 | the comment collection holds exactly the actor's comments, each once, in store order |
| `Views.Blog.RetrieveComment` | blog_api/blog/blog_views.py:49-55 | a comment is shown iff the actor wrote it |
| `Views.Blog.CreateComment` | blog_api/blog/blog_views.py:57-58 | a valid body appends exactly one comment on the body's (existing) post with the actor as author; otherwise the errors and no change |
| `Views.Blog.UpdateComment` | blog_api/blog/blog_views.py:49-55 | only the actor's own comment can be updated; its text and post change as supplied, and its id, author and stamp stay |
| `Views.Blog.DeleteComment` | blog_api/blog/blog_views.py:49-55 | only the actor's own comment can be deleted, and exactly that comment goes |
| `Views.Blog.Register` | blog_api/blog/blog_views.py:11-17 | valid data adds exactly one user under the next user id (never used before) and answers with the username alone, the password being write-only (blog_serializers.py:55-59); invalid data returns the errors and adds nothing |
| `Views.Blog.DeleteUser` | blog_api/blog/blog_models.py:9-37 | removing a user applies exactly the user cascade, and the store stays consistent |
| `Views.InvalidCommentScenario` | blog_api/blog/blog_tests.py:171-177 | on the owner's own post, an empty comment text is answered with exactly the error map holding the text's "empty" message, and no comment is stored |
| `Views.IsolationScenario` | blog_api/blog/blog_tests.py:242-249 | after the set-up of the tests, the other user lists no posts, and the owner's post is out of their scope for its comments (the abstract outcome for the tests' empty list) and for an update |
| `Views.ListingScenario` | blog_api/blog/blog_tests.py:112-118 | after the set-up of the tests, the owner's post list holds exactly one post, titled "Test Post", with exactly one comment, "Test Comment"; the comments action on it (blog_tests.py:186-190) lists exactly that one comment |
| `Views.DeleteCascadeScenario` | blog_api/blog/blog_tests.py:145-149 | once the owner deletes the post, their post list is empty; their comment collection held their one comment before and is empty after, through the cascade |

## Left out

- Token issuance and refresh (blog_api/blog/blog_urls.py:16-17) belong to an external JWT library. Authentication is only "the actor is a registered user id, or nobody".
- Password hashing in `UserCreateSerializer.create` is delegated to the framework's `create_user`. Registration is modelled as inserting the username under a fresh id; the password is not stored.
- URL routing (blog_api/blog/blog_urls.py) is framework dispatch. Each route is a method or function of `Views.Blog`.
- Database indexes and `__str__` (blog_api/blog/blog_models.py:15-22, 39-45) are performance and display metadata.
- The `IsOwner` permission class is not part of this model. Lookups of a single record go through the author-filtered queryset, so someone else's record is never found. The model has one `NotInScope` outcome; it does not separate 403 from 404.
- The default permission of the user view set comes from settings that are not part of this model. Registration is modelled as open to anyone.
- Checks the framework adds to auto-generated serializer fields are not modelled. These include whitespace trimming, the "may not be blank" check, `max_length`, the username character rule and the framework's own uniqueness validator. Only the validators written in the serializers are modelled. Those framework checks run before the written validators, so in the program some of the written messages never reach a client: a blank or over-long title, content or text, a missing post and a taken username are refused first with the framework's own message. The model reports the written messages ("Title cannot be empty.", "... cannot exceed ...", "Post not found.", "Username already exists."), so the error maps in `Serializers.EmptyTitleAndLongContentBothReported` and `Views.InvalidCommentScenario` carry those messages rather than the framework's. What is accepted and what is refused is the same either way, apart from the whitespace trimming.
- Serializers.ValidatePassword: models only `min_length=6` of the declared password field (blog_api/blog/blog_serializers.py:55). The field's framework defaults are not modelled: it trims surrounding whitespace and refuses a blank value with the framework's own message. So the model accepts six spaces, which the code refuses. The model also gives `""` the minimum-length message rather than the blank message. It reads `" abcde "` as seven characters, where the code trims it to five and refuses it.
- A request body that leaves out a field is not modelled. A create body carries every writable field. An update body carries any subset, as PATCH does; the check that a full PUT supplies every field is the framework's and is not modelled.
- HTTP status codes, response rendering and the nested `comments` field of a freshly created post are not modelled. A create answers with the stored record.
- Timestamps are opaque stamps passed in by the caller. The clock is not modelled.
- Concurrency and transactions belong to the database and are not modelled.
- Views.IsolationScenario: the tests expect an empty list with status 200 when another user lists the comments of the owner's post. The model answers `NotInScope`, because the action's lookup goes through the author-filtered queryset (blog_api/blog/blog_views.py:33), and the model does not separate status codes.
- Posts and comments are listed in store (insertion) order, which is also id order. No other ordering is modelled, because the code defines none.
- `UserSerializer` (blog_api/blog/blog_serializers.py:6-9) is used by no view, so it is not modelled.
- The "This field is required" error for a comment body without `post` is not modelled. This is the error the test at blog_api/blog/blog_tests.py:161-169 would meet; it is the framework's required-field check.

=== FILE: Common.dfy ===
/** Small helpers shared by the blog model: an optional value, an order-preserving
    filter over sequences (the model of a queryset `.filter(...)`) and a search
    for the first element that satisfies a condition (the model of `.get(...)`). */
module Common {

  datatype Option<T> = None | Some(value: T)

  /** The elements of `s` that satisfy `keep`, in their original order. */
  function Filter<T(==,!new)>(s: seq<T>, keep: T -> bool): (r: seq<T>)
    ensures |r| <= |s|
    ensures forall x :: x in r <==> x in s && keep(x)
  {
    if s == [] then []
    else (if keep(s[0]) then [s[0]] else []) + Filter(s[1..], keep)
  }

  /** Filtering keeps each kept element exactly as often as `s` holds it, and drops
      every other element altogether. */
  lemma {:induction false} FilterCounts<T(!new)>(s: seq<T>, keep: T -> bool)
    ensures forall x :: multiset(Filter(s, keep))[x] == if keep(x) then multiset(s)[x] else 0
  {
    if s != [] {
      FilterCounts(s[1..], keep);
      assert s == [s[0]] + s[1..];
    }
  }

  /** The index of the first element of `s` that satisfies `found`, if there is one. */
  function IndexWhere<T>(s: seq<T>, found: T -> bool): (r: Option<nat>)
    ensures r.Some? ==> r.value < |s| && found(s[r.value])
    ensures r.Some? ==> forall k :: 0 <= k < r.value ==> !found(s[k])
    ensures r.None? ==> forall k :: 0 <= k < |s| ==> !found(s[k])
  {
    if s == [] then None
    else if found(s[0]) then Some(0)
    else match IndexWhere(s[1..], found)
      case None => None
      case Some(k) => Some(k + 1)
  }

  /** `key` grows strictly along `s`; in particular no two elements share a key. */
  ghost predicate StrictlyIncreasing<T>(s: seq<T>, key: T -> int) {
    forall i, j :: 0 <= i < j < |s| ==> key(s[i]) < key(s[j])
  }

  /** Filtering keeps the relative order of what it keeps. */
  lemma {:induction false} FilterKeepsIncreasing<T(!new)>(s: seq<T>, keep: T -> bool, key: T -> int)
    ensures StrictlyIncreasing(s, key) ==> StrictlyIncreasing(Filter(s, keep), key)
  {
    if s != [] && StrictlyIncreasing(s, key) {
      FilterKeepsIncreasing(s[1..], keep, key);
      var rest := Filter(s[1..], keep);
      var head := if keep(s[0]) then [s[0]] else [];
      assert Filter(s, keep) == head + rest;
      PrependKeepsIncreasing(s, rest, head, key);
    }
  }

  /** The head of an ordered `s`, put before an ordered selection `rest` of its tail,
      keeps the order. */
  lemma PrependKeepsIncreasing<T>(s: seq<T>, rest: seq<T>, head: seq<T>, key: T -> int)
    requires s != [] && StrictlyIncreasing(s, key) && StrictlyIncreasing(rest, key)
    requires forall x :: x in rest ==> x in s[1..]
    requires head == [] || head == [s[0]]
    ensures StrictlyIncreasing(head + rest, key)
  {
    forall x | x in rest
      ensures key(s[0]) < key(x)
    {
      var k :| 0 <= k < |s[1..]| && s[1..][k] == x;
      assert s[k + 1] == x;
    }
    forall i, j | 0 <= i < j < |head + rest|
      ensures key((head + rest)[i]) < key((head + rest)[j])
    {
      if head != [] && i == 0 {
        assert (head + rest)[j] == rest[j - 1];
        assert rest[j - 1] in rest;
      }
    }
  }

  /** In a sequence ordered by `key`, nothing repeats: if `x` is all it holds, it is
      exactly `[x]`. */
  lemma OnlyElement<T>(s: seq<T>, x: T, key: T -> int)
    requires StrictlyIncreasing(s, key)
    ensures (forall y :: y in s <==> y == x) ==> s == [x]
  {
    if forall y :: y in s <==> y == x {
      assert x in s;
      if |s| >= 2 {
        assert s[0] in s && s[1] in s;
        assert key(s[0]) < key(s[1]);
      }
    }
  }

  /** Appending an element whose key exceeds every key already present keeps the order. */
  lemma AppendKeepsIncreasing<T>(s: seq<T>, x: T, key: T -> int)
    requires StrictlyIncreasing(s, key)
    requires forall k :: 0 <= k < |s| ==> key(s[k]) < key(x)
    ensures StrictlyIncreasing(s + [x], key)
  {
  }

  /** Replacing an element by one with the same key keeps the order. */
  lemma ReplaceKeepsIncreasing<T>(s: seq<T>, i: nat, x: T, key: T -> int)
    requires StrictlyIncreasing(s, key)
    requires i < |s| && key(x) == key(s[i])
    ensures StrictlyIncreasing(s[i := x], key)
  {
  }
}

=== FILE: Models.dfy ===
/** The record shapes of the blog: a post and a comment, the column limits of their
    text fields, and the cascade rules of their foreign keys. Users are opaque ids. */
module Models {
  import opened Common

  type UserId = nat
  type PostId = nat
  type CommentId = nat

  /** A creation stamp. The clock that produces it is outside the model: whoever
      creates a record passes the stamp in. */
  type Stamp = nat

  /** Column limits (`max_length`) of Post.title, Post.content and Comment.text. */
  const TitleMaxLength := 100
  const ContentMaxLength := 1000
  const TextMaxLength := 500

  /** A post references exactly one author. */
  datatype Post = Post(id: PostId, title: string, content: string, createdAt: Stamp, author: UserId)

  /** A comment references exactly one post and exactly one author. */
  datatype Comment = Comment(id: CommentId, text: string, createdAt: Stamp, post: PostId, author: UserId)

  /** The post's text fields fit their columns. */
  predicate PostFits(p: Post) {
    |p.title| <= TitleMaxLength && |p.content| <= ContentMaxLength
  }

  /** The comment's text fits its column. */
  predicate CommentFits(c: Comment) {
    |c.text| <= TextMaxLength
  }

  function PostKey(p: Post): int { p.id }
  function CommentKey(c: Comment): int { c.id }

  /** Some post in `ps` has the id `id`. */
  predicate HasPost(ps: seq<Post>, id: PostId) {
    exists p :: p in ps && p.id == id
  }

  /** The ids of the posts in `ps`. */
  function PostIds(ps: seq<Post>): (r: set<PostId>)
    ensures forall id :: id in r <==> HasPost(ps, id)
  {
    set p | p in ps :: p.id
  }

  /** Some post in `ps` has the id `id` and is authored by `u`. */
  predicate HasPostBy(ps: seq<Post>, id: PostId, u: UserId) {
    exists p :: p in ps && p.id == id && p.author == u
  }

  /** Some comment in `cs` has the id `id` and is authored by `u`. */
  predicate HasCommentBy(cs: seq<Comment>, id: CommentId, u: UserId) {
    exists c :: c in cs && c.id == id && c.author == u
  }

  /** Every foreign key resolves: each post's author and each comment's author
      are users, and each comment's post is a stored post. */
  ghost predicate Integrity(users: set<UserId>, ps: seq<Post>, cs: seq<Comment>) {
    (forall p :: p in ps ==> p.author in users)
    && (forall c :: c in cs ==> c.author in users && HasPost(ps, c.post))
  }

  /** No record keeps an author or a creation stamp other than the one it was created
      with: whatever record of `after` shares its id with a record of `before` has the
      same author and the same stamp. */
  ghost predicate PostsKeepOrigin(before: seq<Post>, after: seq<Post>) {
    forall p, q :: p in before && q in after && p.id == q.id ==>
      q.author == p.author && q.createdAt == p.createdAt
  }

  ghost predicate CommentsKeepOrigin(before: seq<Comment>, after: seq<Comment>) {
    forall c, d :: c in before && d in after && c.id == d.id ==>
      d.author == c.author && d.createdAt == c.createdAt
  }

  /** The records that survive deleting post `id`. */
  function OtherPost(id: PostId): Post -> bool { (p: Post) => p.id != id }
  function NotOnPost(id: PostId): Comment -> bool { (c: Comment) => c.post != id }

  /** The records that survive deleting user `u`: the post cascade reaches every
      comment on one of `u`'s posts in `ps`. */
  function NotByUser(u: UserId): Post -> bool { (p: Post) => p.author != u }
  function NotReachedFromUser(ps: seq<Post>, u: UserId): Comment -> bool {
    (c: Comment) => c.author != u && !HasPostBy(ps, c.post, u)
  }

  /** Keeping some of the posts, unchanged, never gives one a new author or stamp. */
  lemma KeptPostsKeepOrigin(before: seq<Post>, after: seq<Post>)
    requires StrictlyIncreasing(before, PostKey)
    requires forall q :: q in after ==> q in before
    ensures PostsKeepOrigin(before, after)
  {
  }

  lemma KeptCommentsKeepOrigin(before: seq<Comment>, after: seq<Comment>)
    requires StrictlyIncreasing(before, CommentKey)
    requires forall d :: d in after ==> d in before
    ensures CommentsKeepOrigin(before, after)
  {
  }

  /** Adding a record under a fresh id gives no existing record a new author or stamp. */
  lemma AddedPostKeepsOrigin(before: seq<Post>, p: Post)
    requires StrictlyIncreasing(before, PostKey)
    requires forall q :: q in before ==> q.id < p.id
    ensures PostsKeepOrigin(before, before + [p])
  {
  }

  lemma AddedCommentKeepsOrigin(before: seq<Comment>, c: Comment)
    requires StrictlyIncreasing(before, CommentKey)
    requires forall d :: d in before ==> d.id < c.id
    ensures CommentsKeepOrigin(before, before + [c])
  {
  }

  /** Rewriting a record in place with its id, author and stamp unchanged gives no
      record a new author or stamp. */
  lemma ReplacedPostKeepsOrigin(before: seq<Post>, i: nat, p: Post)
    requires StrictlyIncreasing(before, PostKey)
    requires i < |before| && p.id == before[i].id && p.author == before[i].author && p.createdAt == before[i].createdAt
    ensures PostsKeepOrigin(before, before[i := p])
  {
  }

  lemma ReplacedCommentKeepsOrigin(before: seq<Comment>, i: nat, c: Comment)
    requires StrictlyIncreasing(before, CommentKey)
    requires i < |before| && c.id == before[i].id && c.author == before[i].author && c.createdAt == before[i].createdAt
    ensures CommentsKeepOrigin(before, before[i := c])
  {
  }

  /** Deleting post `id`: the post goes, and so does every comment whose post
      foreign key names it (`on_delete=CASCADE`); nothing else goes. */
  function DeletePostCascade(ps: seq<Post>, cs: seq<Comment>, id: PostId): (r: (seq<Post>, seq<Comment>))
    ensures forall p :: p in r.0 <==> p in ps && p.id != id
    ensures forall c :: c in r.1 <==> c in cs && c.post != id
  {
    (Filter(ps, OtherPost(id)), Filter(cs, NotOnPost(id)))
  }

  /** Deleting user `u`: their posts go, their comments go, and through the post
      cascade every comment, by anyone, on one of their posts goes too. */
  function DeleteUserCascade(ps: seq<Post>, cs: seq<Comment>, u: UserId): (r: (seq<Post>, seq<Comment>))
    ensures forall p :: p in r.0 <==> p in ps && p.author != u
    ensures forall c :: c in r.1 <==> c in cs && c.author != u && !HasPostBy(ps, c.post, u)
  {
    (Filter(ps, NotByUser(u)), Filter(cs, NotReachedFromUser(ps, u)))
  }

  /** The post cascade keeps the surviving records in id order. */
  lemma DeletePostKeepsOrder(ps: seq<Post>, cs: seq<Comment>, id: PostId)
    requires StrictlyIncreasing(ps, PostKey) && StrictlyIncreasing(cs, CommentKey)
    ensures StrictlyIncreasing(DeletePostCascade(ps, cs, id).0, PostKey)
    ensures StrictlyIncreasing(DeletePostCascade(ps, cs, id).1, CommentKey)
  {
    FilterKeepsIncreasing(ps, OtherPost(id), PostKey);
    FilterKeepsIncreasing(cs, NotOnPost(id), CommentKey);
  }

  /** The user cascade keeps the surviving records in id order. */
  lemma DeleteUserKeepsOrder(ps: seq<Post>, cs: seq<Comment>, u: UserId)
    requires StrictlyIncreasing(ps, PostKey) && StrictlyIncreasing(cs, CommentKey)
    ensures StrictlyIncreasing(DeleteUserCascade(ps, cs, u).0, PostKey)
    ensures StrictlyIncreasing(DeleteUserCascade(ps, cs, u).1, CommentKey)
  {
    FilterKeepsIncreasing(ps, NotByUser(u), PostKey);
    FilterKeepsIncreasing(cs, NotReachedFromUser(ps, u), CommentKey);
  }

  /** Adding a post by a user keeps every foreign key resolved. */
  lemma AddPostKeepsIntegrity(users: set<UserId>, ps: seq<Post>, cs: seq<Comment>, p: Post)
    requires Integrity(users, ps, cs) && p.author in users
    ensures Integrity(users, ps + [p], cs)
  {
  }

  /** Adding a comment by a user on a stored post keeps every foreign key resolved. */
  lemma AddCommentKeepsIntegrity(users: set<UserId>, ps: seq<Post>, cs: seq<Comment>, c: Comment)
    requires Integrity(users, ps, cs) && c.author in users && HasPost(ps, c.post)
    ensures Integrity(users, ps, cs + [c])
  {
  }

  /** Rewriting a post in place, with its id and author unchanged, keeps every
      foreign key resolved. */
  lemma ReplacePostKeepsIntegrity(users: set<UserId>, ps: seq<Post>, cs: seq<Comment>, i: nat, p: Post)
    requires Integrity(users, ps, cs)
    requires i < |ps| && p.id == ps[i].id && p.author == ps[i].author
    ensures Integrity(users, ps[i := p], cs)
  {
    forall c | c in cs
      ensures HasPost(ps[i := p], c.post)
    {
      var q :| q in ps && q.id == c.post;
      var k :| 0 <= k < |ps| && ps[k] == q;
      assert ps[i := p][k].id == c.post;
    }
  }

  /** Rewriting a comment in place, keeping its author and pointing it at a stored
      post, keeps every foreign key resolved. */
  lemma ReplaceCommentKeepsIntegrity(users: set<UserId>, ps: seq<Post>, cs: seq<Comment>, i: nat, c: Comment)
    requires Integrity(users, ps, cs)
    requires i < |cs| && c.author == cs[i].author && HasPost(ps, c.post)
    ensures Integrity(users, ps, cs[i := c])
  {
  }

  /** Deleting a post leaves no orphan: every remaining comment still names a
      remaining post, and no remaining comment names the deleted one. */
  lemma DeletePostLeavesNoOrphans(users: set<UserId>, ps: seq<Post>, cs: seq<Comment>, id: PostId)
    requires Integrity(users, ps, cs)
    ensures Integrity(users, DeletePostCascade(ps, cs, id).0, DeletePostCascade(ps, cs, id).1)
    ensures forall c :: c in DeletePostCascade(ps, cs, id).1 ==> c.post != id
  {
  }

  /** Deleting a user leaves no orphan either: nothing remaining names that user,
      and every remaining comment still names a remaining post. */
  lemma DeleteUserLeavesNoOrphans(users: set<UserId>, ps: seq<Post>, cs: seq<Comment>, u: UserId)
    requires Integrity(users, ps, cs)
    ensures Integrity(users - {u}, DeleteUserCascade(ps, cs, u).0, DeleteUserCascade(ps, cs, u).1)
  {
  }
}

=== FILE: Serializers.dfy ===
/** The validation layer of the blog: one validator per field, each a total decision
    that either returns the value unchanged or gives one message, and the serializers
    that run the validators of every field of a request body and report every failure
    together, keyed by field name. Read-only fields (`author`, `created_at`) may appear
    in a body but never reach the validated data; the password is write-only and never
    appears in the answer to a registration. */
module Serializers {
  import opened Common
  import opened Models

  datatype Result<T> = Ok(value: T) | Err(message: string)

  /** Field name to the one message its validator gave. */
  type Errors = map<string, string>

  datatype Validated<T> = Accepted(data: T) | Refused(errors: Errors)

  const TextEmpty := "Text cannot be empty."
  const TextTooLong := "Text cannot exceed 500 characters."
  const PostNotFound := "Post not found."
  const TitleEmpty := "Title cannot be empty."
  const TitleTooLong := "Title cannot exceed 100 characters."
  const ContentEmpty := "Content cannot be empty."
  const ContentTooLong := "Content cannot exceed 1000 characters."
  const UsernameTooShort := "Username must be at least 3 characters."
  const UsernameTooLong := "Username cannot exceed 50 characters."
  const UsernameTaken := "Username already exists."
  /** The framework's wording for a `min_length` violation. */
  const PasswordTooShort := "Ensure this field has at least 6 characters."

  const UsernameMinLength := 3
  const UsernameMaxLength := 50
  const PasswordMinLength := 6

  // ---------------------------------------------------------------------------
  // Field validators

  /** CommentSerializer.validate_text. The accepted lengths are exactly those the
      Comment.text column holds. */
  function ValidateText(value: string): (r: Result<string>)
    ensures r.Ok? <==> 1 <= |value| <= TextMaxLength
    ensures r.Ok? ==> r.value == value
    ensures |value| < 1 ==> r == Err(TextEmpty)
    ensures |value| > TextMaxLength ==> r == Err(TextTooLong)
  {
    if |value| < 1 then Err(TextEmpty)
    else if |value| > 500 then Err(TextTooLong)
    else Ok(value)
  }

  /** CommentSerializer.validate_post: the referenced post must exist, among all posts. */
  function ValidatePost(value: PostId, posts: set<PostId>): (r: Result<PostId>)
    ensures r.Ok? <==> value in posts
    ensures r.Ok? ==> r.value == value
    ensures r.Err? ==> r.message == PostNotFound
  {
    if value !in posts then Err(PostNotFound) else Ok(value)
  }

  /** PostSerializer.validate_title. */
  function ValidateTitle(value: string): (r: Result<string>)
    ensures r.Ok? <==> 1 <= |value| <= TitleMaxLength
    ensures r.Ok? ==> r.value == value
    ensures |value| < 1 ==> r == Err(TitleEmpty)
    ensures |value| > TitleMaxLength ==> r == Err(TitleTooLong)
  {
    if |value| < 1 then Err(TitleEmpty)
    else if |value| > 100 then Err(TitleTooLong)
    else Ok(value)
  }

  /** PostSerializer.validate_content. */
  function ValidateContent(value: string): (r: Result<string>)
    ensures r.Ok? <==> 1 <= |value| <= ContentMaxLength
    ensures r.Ok? ==> r.value == value
    ensures |value| < 1 ==> r == Err(ContentEmpty)
    ensures |value| > ContentMaxLength ==> r == Err(ContentTooLong)
  {
    if |value| < 1 then Err(ContentEmpty)
    else if |value| > 1000 then Err(ContentTooLong)
    else Ok(value)
  }

  /** UserCreateSerializer.validate_username against the usernames already taken.
      The two length checks come before the uniqueness check, so a name that is both
      too short and taken is reported as too short. */
  function ValidateUsername(value: string, taken: set<string>): (r: Result<string>)
    ensures r.Ok? <==> UsernameMinLength <= |value| <= UsernameMaxLength && value !in taken
    ensures r.Ok? ==> r.value == value
    ensures |value| < UsernameMinLength ==> r == Err(UsernameTooShort)
    ensures |value| > UsernameMaxLength ==> r == Err(UsernameTooLong)
    ensures UsernameMinLength <= |value| <= UsernameMaxLength && value in taken ==> r == Err(UsernameTaken)
  {
    if |value| < 3 then Err(UsernameTooShort)
    else if |value| > 50 then Err(UsernameTooLong)
    else if value in taken then Err(UsernameTaken)
    else Ok(value)
  }

  /** UserCreateSerializer.password: `min_length=6`. */
  function ValidatePassword(value: string): (r: Result<string>)
    ensures r.Ok? <==> |value| >= PasswordMinLength
    ensures r.Ok? ==> r.value == value
    ensures r.Err? ==> r.message == PasswordTooShort
  {
    if |value| < 6 then Err(PasswordTooShort) else Ok(value)
  }

  // ---------------------------------------------------------------------------
  // Collecting the errors of several fields

  /** The entry a field contributes to the error map: its message, if it failed. */
  function FieldError<T>(field: string, r: Result<T>): (e: Errors)
    ensures field in e <==> r.Err?
    ensures e.Keys <= {field}
    ensures r.Err? ==> e[field] == r.message
  {
    if r.Err? then map[field := r.message] else map[]
  }

  /** `errors` reports the outcome `r` of the validator of `field`: the field is a key
      exactly when the validator failed, and its message is the validator's. */
  ghost predicate Reports<T>(errors: Errors, field: string, r: Result<T>) {
    (field in errors <==> r.Err?) && (r.Err? ==> errors[field] == r.message)
  }

  /** The entry of a field the body may leave out (a partial update): nothing when absent. */
  function OptionalFieldError<T, U>(field: string, value: Option<T>, check: T -> Result<U>): (e: Errors)
    ensures e.Keys <= {field}
    ensures value.None? ==> e == map[]
    ensures value.Some? ==> e == FieldError(field, check(value.value))
  {
    if value.Some? then FieldError(field, check(value.value)) else map[]
  }

  // ---------------------------------------------------------------------------
  // Posts

  /** A post request body as the client sends it. `author` and `createdAt` stand for
      values the client may include for the read-only fields. */
  datatype PostInput = PostInput(title: string, content: string, author: Option<UserId>, createdAt: Option<Stamp>)

  /** The validated data of a post: only the writable fields. */
  datatype PostData = PostData(title: string, content: string)

  /** PostSerializer.is_valid on a create body. */
  function ValidatePostInput(input: PostInput): (r: Validated<PostData>)
    ensures r.Accepted? <==> 1 <= |input.title| <= TitleMaxLength && 1 <= |input.content| <= ContentMaxLength
    ensures r.Accepted? ==> r.data == PostData(input.title, input.content)
    ensures r.Refused? ==> r.errors != map[] && r.errors.Keys <= {"title", "content"}
    ensures r.Refused? ==> Reports(r.errors, "title", ValidateTitle(input.title))
    ensures r.Refused? ==> Reports(r.errors, "content", ValidateContent(input.content))
  {
    var errors := FieldError("title", ValidateTitle(input.title))
      + FieldError("content", ValidateContent(input.content));
    if errors == map[] then Accepted(PostData(input.title, input.content)) else Refused(errors)
  }

  /** A partial post body: the fields the client supplied. */
  datatype PostPatch = PostPatch(title: Option<string>, content: Option<string>, author: Option<UserId>, createdAt: Option<Stamp>)

  /** The validated changes of a post: only writable fields, only those supplied. */
  datatype PostChanges = PostChanges(title: Option<string>, content: Option<string>)

  /** PostSerializer.is_valid on an update body: each supplied field is validated. */
  function ValidatePostPatch(patch: PostPatch): (r: Validated<PostChanges>)
    ensures r.Accepted? <==>
      (patch.title.Some? ==> 1 <= |patch.title.value| <= TitleMaxLength)
      && (patch.content.Some? ==> 1 <= |patch.content.value| <= ContentMaxLength)
    ensures r.Accepted? ==> r.data == PostChanges(patch.title, patch.content)
    ensures r.Refused? ==> r.errors != map[] && r.errors.Keys <= {"title", "content"}
    ensures r.Refused? && patch.title.Some? ==> Reports(r.errors, "title", ValidateTitle(patch.title.value))
    ensures r.Refused? && patch.content.Some? ==> Reports(r.errors, "content", ValidateContent(patch.content.value))
    ensures r.Refused? && patch.title.None? ==> "title" !in r.errors
    ensures r.Refused? && patch.content.None? ==> "content" !in r.errors
  {
    var errors := OptionalFieldError("title", patch.title, ValidateTitle)
      + OptionalFieldError("content", patch.content, ValidateContent);
    if errors == map[] then Accepted(PostChanges(patch.title, patch.content)) else Refused(errors)
  }

  // ---------------------------------------------------------------------------
  // Comments

  /** A comment request body: text, a post reference, and whatever the client put in
      the read-only fields. */
  datatype CommentInput = CommentInput(text: string, post: PostId, author: Option<UserId>, createdAt: Option<Stamp>)

  datatype CommentData = CommentData(text: string, post: PostId)

  /** CommentSerializer.is_valid on a create body, given the ids of all stored posts. */
  function ValidateCommentInput(input: CommentInput, posts: set<PostId>): (r: Validated<CommentData>)
    ensures r.Accepted? <==> 1 <= |input.text| <= TextMaxLength && input.post in posts
    ensures r.Accepted? ==> r.data == CommentData(input.text, input.post)
    ensures r.Refused? ==> r.errors != map[] && r.errors.Keys <= {"text", "post"}
    ensures r.Refused? ==> Reports(r.errors, "text", ValidateText(input.text))
    ensures r.Refused? ==> Reports(r.errors, "post", ValidatePost(input.post, posts))
  {
    var errors := FieldError("text", ValidateText(input.text))
      + FieldError("post", ValidatePost(input.post, posts));
    if errors == map[] then Accepted(CommentData(input.text, input.post)) else Refused(errors)
  }

  datatype CommentPatch = CommentPatch(text: Option<string>, post: Option<PostId>, author: Option<UserId>, createdAt: Option<Stamp>)

  datatype CommentChanges = CommentChanges(text: Option<string>, post: Option<PostId>)

  /** CommentSerializer.is_valid on an update body: each supplied field is validated. */
  function ValidateCommentPatch(patch: CommentPatch, posts: set<PostId>): (r: Validated<CommentChanges>)
    ensures r.Accepted? <==>
      (patch.text.Some? ==> 1 <= |patch.text.value| <= TextMaxLength)
      && (patch.post.Some? ==> patch.post.value in posts)
    ensures r.Accepted? ==> r.data == CommentChanges(patch.text, patch.post)
    ensures r.Refused? ==> r.errors != map[] && r.errors.Keys <= {"text", "post"}
    ensures r.Refused? && patch.text.Some? ==> Reports(r.errors, "text", ValidateText(patch.text.value))
    ensures r.Refused? && patch.post.Some? ==> Reports(r.errors, "post", ValidatePost(patch.post.value, posts))
    ensures r.Refused? && patch.text.None? ==> "text" !in r.errors
    ensures r.Refused? && patch.post.None? ==> "post" !in r.errors
  {
    var errors := OptionalFieldError("text", patch.text, ValidateText)
      + OptionalFieldError("post", patch.post, (p: PostId) => ValidatePost(p, posts));
    if errors == map[] then Accepted(CommentChanges(patch.text, patch.post)) else Refused(errors)
  }

  // ---------------------------------------------------------------------------
  // Users

  /** A registration body; also the validated data handed on to user creation. */
  datatype Registration = Registration(username: string, password: string)

  /** UserCreateSerializer's rendering of a created user: its fields are username and
      password, and the password is write-only, so the username is all that remains. */
  datatype Registered = Registered(username: string)

  /** UserCreateSerializer.is_valid, given the usernames already taken. */
  function ValidateRegistration(input: Registration, taken: set<string>): (r: Validated<Registration>)
    ensures r.Accepted? <==>
      UsernameMinLength <= |input.username| <= UsernameMaxLength && input.username !in taken
      && |input.password| >= PasswordMinLength
    ensures r.Accepted? ==> r.data == input
    ensures r.Refused? ==> r.errors != map[] && r.errors.Keys <= {"username", "password"}
    ensures r.Refused? ==> Reports(r.errors, "username", ValidateUsername(input.username, taken))
    ensures r.Refused? ==> Reports(r.errors, "password", ValidatePassword(input.password))
  {
    var errors := FieldError("username", ValidateUsername(input.username, taken))
      + FieldError("password", ValidatePassword(input.password));
    if errors == map[] then Accepted(input) else Refused(errors)
  }

  // ---------------------------------------------------------------------------
  // Properties

  /** What a client puts in the read-only fields has no effect on validation. */
  lemma PostReadOnlyFieldsIgnored(a: PostInput, b: PostInput)
    requires a.title == b.title && a.content == b.content
    ensures ValidatePostInput(a) == ValidatePostInput(b)
  {
  }

  lemma CommentReadOnlyFieldsIgnored(a: CommentInput, b: CommentInput, posts: set<PostId>)
    requires a.text == b.text && a.post == b.post
    ensures ValidateCommentInput(a, posts) == ValidateCommentInput(b, posts)
  {
  }

  /** An empty title together with a 1001-character content is reported under both
      field names at once. */
  lemma EmptyTitleAndLongContentBothReported()
    ensures var r := ValidatePostInput(PostInput("", seq(1001, _ => 'a'), None, None));
      r.Refused? && r.errors == map["title" := TitleEmpty, "content" := ContentTooLong]
  {
  }

  /** Once a name is taken, registering it again fails with a username error,
      whatever the password. */
  lemma DuplicateUsernameRejected(name: string, password: string, taken: set<string>)
    requires name in taken
    ensures ValidateRegistration(Registration(name, password), taken).Refused?
    ensures "username" in ValidateRegistration(Registration(name, password), taken).errors
  {
  }

  /** A two-character name is refused and a three-character one accepted (given a free
      name and a long enough password). */
  lemma UsernameLengthBoundary(password: string, taken: set<string>)
    requires |password| >= PasswordMinLength && "abc" !in taken
    ensures ValidateRegistration(Registration("ab", password), taken).Refused?
    ensures ValidateRegistration(Registration("ab", password), taken).errors == map["username" := UsernameTooShort]
    ensures ValidateRegistration(Registration("abc", password), taken).Accepted?
  {
  }
}

=== FILE: Views.dfy ===
/** The request handlers of the blog over an in-memory store of users, posts and
    comments. Every post and comment operation first requires an authenticated actor;
    reads and writes of a single post or comment go through the actor's own records
    only, so a record of someone else is simply not in scope; and every create forces
    the author (and, for a comment under a post, the post) from the request context,
    never from the body. */
module Views {
  import opened Common
  import opened Models
  import opened Serializers

  /** The outcome of a request. `NotInScope` stands for every way the framework turns
      away an authenticated actor from a record that is not theirs or does not exist. */
  datatype Response<T> = Success(value: T) | Unauthenticated | NotInScope | Rejected(errors: Errors)

  /** A post as the post serializer renders it: the record with its nested comments. */
  datatype PostView = PostView(post: Post, comments: seq<Comment>)

  // ---------------------------------------------------------------------------
  // Querysets

  /** `Post.objects.filter(author=u)`. */
  function PostsBy(ps: seq<Post>, u: UserId): (r: seq<Post>)
    ensures forall p :: p in r <==> p in ps && p.author == u
    ensures StrictlyIncreasing(ps, PostKey) ==> StrictlyIncreasing(r, PostKey)
  {
    FilterKeepsIncreasing(ps, (p: Post) => p.author == u, PostKey);
    Filter(ps, (p: Post) => p.author == u)
  }

  /** `post.comments`: every comment on the post, whoever wrote it. */
  function CommentsOn(cs: seq<Comment>, id: PostId): (r: seq<Comment>)
    ensures forall c :: c in r <==> c in cs && c.post == id
    ensures StrictlyIncreasing(cs, CommentKey) ==> StrictlyIncreasing(r, CommentKey)
  {
    FilterKeepsIncreasing(cs, (c: Comment) => c.post == id, CommentKey);
    Filter(cs, (c: Comment) => c.post == id)
  }

  /** `Comment.objects.filter(author=u)`. */
  function CommentsBy(cs: seq<Comment>, u: UserId): (r: seq<Comment>)
    ensures forall c :: c in r <==> c in cs && c.author == u
    ensures StrictlyIncreasing(cs, CommentKey) ==> StrictlyIncreasing(r, CommentKey)
  {
    FilterKeepsIncreasing(cs, (c: Comment) => c.author == u, CommentKey);
    Filter(cs, (c: Comment) => c.author == u)
  }

  /** `Comment.objects.filter(post=post, author=u)`. */
  function CommentsOnBy(cs: seq<Comment>, id: PostId, u: UserId): (r: seq<Comment>)
    ensures forall c :: c in r <==> c in cs && c.post == id && c.author == u
    ensures StrictlyIncreasing(cs, CommentKey) ==> StrictlyIncreasing(r, CommentKey)
  {
    FilterKeepsIncreasing(cs, (c: Comment) => c.post == id && c.author == u, CommentKey);
    Filter(cs, (c: Comment) => c.post == id && c.author == u)
  }

  /** A rendered list is ordered by the ids of its posts. */
  function ViewKey(v: PostView): int { v.post.id }

  /** The rendering of one post with its comments. */
  function Render(p: Post, cs: seq<Comment>): (v: PostView)
    ensures v.post == p
    ensures forall c :: c in v.comments <==> c in cs && c.post == p.id
    ensures StrictlyIncreasing(cs, CommentKey) ==> StrictlyIncreasing(v.comments, CommentKey)
  {
    PostView(p, CommentsOn(cs, p.id))
  }

  /** The rendering of a list of posts, one view per post, in order. */
  function RenderAll(ps: seq<Post>, cs: seq<Comment>): (r: seq<PostView>)
    ensures |r| == |ps|
    ensures forall i :: 0 <= i < |ps| ==> r[i].post == ps[i]
    ensures forall v, c :: v in r ==> (c in v.comments <==> c in cs && c.post == v.post.id)
    ensures StrictlyIncreasing(cs, CommentKey) ==> forall v :: v in r ==> StrictlyIncreasing(v.comments, CommentKey)
  {
    if ps == [] then [] else [Render(ps[0], cs)] + RenderAll(ps[1..], cs)
  }

  /** An update applied to a post: the supplied fields change, nothing else does. */
  function ApplyPostChanges(p: Post, ch: PostChanges): (r: Post)
    ensures r.id == p.id && r.author == p.author && r.createdAt == p.createdAt
    ensures r.title == (if ch.title.Some? then ch.title.value else p.title)
    ensures r.content == (if ch.content.Some? then ch.content.value else p.content)
  {
    p.(title := if ch.title.Some? then ch.title.value else p.title,
       content := if ch.content.Some? then ch.content.value else p.content)
  }

  /** An update applied to a comment: text and post may change, nothing else does. */
  function ApplyCommentChanges(c: Comment, ch: CommentChanges): (r: Comment)
    ensures r.id == c.id && r.author == c.author && r.createdAt == c.createdAt
    ensures r.text == (if ch.text.Some? then ch.text.value else c.text)
    ensures r.post == (if ch.post.Some? then ch.post.value else c.post)
  {
    c.(text := if ch.text.Some? then ch.text.value else c.text,
       post := if ch.post.Some? then ch.post.value else c.post)
  }

  /** Whatever the serializers accept fits the columns it is stored in: a created or
      updated post fits Post.title and Post.content, a created or updated comment fits
      Comment.text. */
  lemma AcceptedValuesFitColumns(input: PostInput, patch: PostPatch, p: Post,
                                 cin: CommentInput, cpatch: CommentPatch, c: Comment,
                                 posts: set<PostId>, id: nat, now: Stamp, u: UserId)
    requires PostFits(p) && CommentFits(c)
    ensures ValidatePostInput(input).Accepted? ==>
      PostFits(Post(id, ValidatePostInput(input).data.title, ValidatePostInput(input).data.content, now, u))
    ensures ValidatePostPatch(patch).Accepted? ==> PostFits(ApplyPostChanges(p, ValidatePostPatch(patch).data))
    ensures ValidateCommentInput(cin, posts).Accepted? ==>
      CommentFits(Comment(id, ValidateCommentInput(cin, posts).data.text, now, cin.post, u))
    ensures ValidateCommentPatch(cpatch, posts).Accepted? ==>
      CommentFits(ApplyCommentChanges(c, ValidateCommentPatch(cpatch, posts).data))
  {
  }

  // ---------------------------------------------------------------------------
  // The store and its view sets

  class Blog {
    /** Registered users: id to username. */
    var users: map<UserId, string>
    var posts: seq<Post>
    var comments: seq<Comment>
    /** The next id each table hands out. */
    var nextUser: nat
    var nextPost: nat
    var nextComment: nat

    ghost predicate Valid()
      reads this
    {
      (forall u :: u in users ==> u < nextUser)
      && (forall u, v :: u in users && v in users && users[u] == users[v] ==> u == v)
      && StrictlyIncreasing(posts, PostKey)
      && StrictlyIncreasing(comments, CommentKey)
      && (forall p :: p in posts ==> p.id < nextPost && PostFits(p))
      && (forall c :: c in comments ==> c.id < nextComment && CommentFits(c))
      && Integrity(users.Keys, posts, comments)
    }

    constructor ()
      ensures Valid()
      ensures users == map[] && posts == [] && comments == []
    {
      users := map[];
      posts := [];
      comments := [];
      nextUser, nextPost, nextComment := 0, 0, 0;
    }

    /** Authentication only ever yields a registered user, or nobody. */
    predicate Known(actor: Option<UserId>)
      reads this
    {
      actor.Some? ==> actor.value in users
    }

    /** The usernames already taken. */
    function Usernames(): set<string>
      reads this
    {
      users.Values
    }

    /** `get_object` on the actor's posts: the index of post `id` if `u` wrote it. */
    function OwnedPost(u: UserId, id: PostId): (r: Option<nat>)
      reads this
      ensures r.Some? <==> HasPostBy(posts, id, u)
      ensures r.Some? ==> r.value < |posts| && posts[r.value].id == id && posts[r.value].author == u
    {
      var r := IndexWhere(posts, (p: Post) => p.id == id && p.author == u);
      assert r.None? ==> forall p :: p in posts ==> !(p.id == id && p.author == u) by {
        if r.None? {
          forall p | p in posts ensures !(p.id == id && p.author == u) {
            var k :| 0 <= k < |posts| && posts[k] == p;
          }
        }
      }
      r
    }

    /** `get_object` on the actor's comments: the index of comment `id` if `u` wrote it. */
    function OwnedComment(u: UserId, id: CommentId): (r: Option<nat>)
      reads this
      ensures r.Some? <==> HasCommentBy(comments, id, u)
      ensures r.Some? ==> r.value < |comments| && comments[r.value].id == id && comments[r.value].author == u
    {
      var r := IndexWhere(comments, (c: Comment) => c.id == id && c.author == u);
      assert r.None? ==> forall c :: c in comments ==> !(c.id == id && c.author == u) by {
        if r.None? {
          forall c | c in comments ensures !(c.id == id && c.author == u) {
            var k :| 0 <= k < |comments| && comments[k] == c;
          }
        }
      }
      r
    }

    // -------------------------------------------------------------------------
    // Saving records (the ORM's `save`)

    /** Stores a new post under the next post id. */
    method InsertPost(p: Post)
      requires Valid() && p.id == nextPost && p.author in users && PostFits(p)
      modifies this
      ensures Valid()
      ensures posts == old(posts) + [p] && nextPost == old(nextPost) + 1
      ensures users == old(users) && comments == old(comments)
      ensures nextUser == old(nextUser) && nextComment == old(nextComment)
      ensures PostsKeepOrigin(old(posts), posts)
    {
      AppendKeepsIncreasing(posts, p, PostKey);
      AddPostKeepsIntegrity(users.Keys, posts, comments, p);
      AddedPostKeepsOrigin(posts, p);
      posts := posts + [p];
      nextPost := nextPost + 1;
    }

    /** Rewrites the post at index `i`, keeping its id, author and stamp. */
    method SavePost(i: nat, p: Post)
      requires Valid() && i < |posts| && PostFits(p)
      requires p.id == posts[i].id && p.author == posts[i].author && p.createdAt == posts[i].createdAt
      modifies this
      ensures Valid()
      ensures posts == old(posts)[i := p]
      ensures users == old(users) && comments == old(comments)
      ensures nextUser == old(nextUser) && nextPost == old(nextPost) && nextComment == old(nextComment)
      ensures PostsKeepOrigin(old(posts), posts)
    {
      ReplaceKeepsIncreasing(posts, i, p, PostKey);
      ReplacePostKeepsIntegrity(users.Keys, posts, comments, i, p);
      ReplacedPostKeepsOrigin(posts, i, p);
      posts := posts[i := p];
    }

    /** Stores a new comment under the next comment id. */
    method InsertComment(c: Comment)
      requires Valid() && c.id == nextComment && c.author in users && HasPost(posts, c.post) && CommentFits(c)
      modifies this
      ensures Valid()
      ensures comments == old(comments) + [c] && nextComment == old(nextComment) + 1
      ensures users == old(users) && posts == old(posts)
      ensures nextUser == old(nextUser) && nextPost == old(nextPost)
      ensures CommentsKeepOrigin(old(comments), comments)
    {
      AppendKeepsIncreasing(comments, c, CommentKey);
      AddCommentKeepsIntegrity(users.Keys, posts, comments, c);
      AddedCommentKeepsOrigin(comments, c);
      comments := comments + [c];
      nextComment := nextComment + 1;
    }

    /** Rewrites the comment at index `i`, keeping its id, author and stamp. */
    method SaveComment(i: nat, c: Comment)
      requires Valid() && i < |comments| && HasPost(posts, c.post) && CommentFits(c)
      requires c.id == comments[i].id && c.author == comments[i].author && c.createdAt == comments[i].createdAt
      modifies this
      ensures Valid()
      ensures comments == old(comments)[i := c]
      ensures users == old(users) && posts == old(posts)
      ensures nextUser == old(nextUser) && nextPost == old(nextPost) && nextComment == old(nextComment)
      ensures CommentsKeepOrigin(old(comments), comments)
    {
      ReplaceKeepsIncreasing(comments, i, c, CommentKey);
      ReplaceCommentKeepsIntegrity(users.Keys, posts, comments, i, c);
      ReplacedCommentKeepsOrigin(comments, i, c);
      comments := comments[i := c];
    }

    // -------------------------------------------------------------------------
    // PostViewSet

    /** GET /posts: exactly the actor's posts, each with all of its comments. */
    function ListPosts(actor: Option<UserId>): (r: Response<seq<PostView>>)
      reads this
      ensures actor.None? <==> r == Unauthenticated
      ensures actor.Some? ==> r.Success?
      ensures r.Success? ==> forall v :: v in r.value ==> v.post in posts && v.post.author == actor.value
      ensures r.Success? ==> forall p :: p in posts && p.author == actor.value ==> exists v :: v in r.value && v.post == p
      ensures r.Success? ==> forall v, c :: v in r.value ==> (c in v.comments <==> c in comments && c.post == v.post.id)
      ensures Valid() && r.Success? ==> StrictlyIncreasing(r.value, ViewKey)
      ensures Valid() && r.Success? ==> forall v :: v in r.value ==> StrictlyIncreasing(v.comments, CommentKey)
    {
      if actor.None? then Unauthenticated
      else
        var mine := PostsBy(posts, actor.value);
        var r := RenderAll(mine, comments);
        assert forall v :: v in r ==> v.post in mine by {
          forall v | v in r ensures v.post in mine {
            var i :| 0 <= i < |r| && r[i] == v;
          }
        }
        assert forall p :: p in mine ==> exists v :: v in r && v.post == p by {
          forall p | p in mine ensures exists v :: v in r && v.post == p {
            var i :| 0 <= i < |mine| && mine[i] == p;
            assert r[i] in r;
          }
        }
        Success(r)
    }

    /** GET /posts/{id}: the post with its comments, if it is the actor's. */
    function RetrievePost(actor: Option<UserId>, id: PostId): (r: Response<PostView>)
      reads this
      ensures actor.None? <==> r == Unauthenticated
      ensures actor.Some? ==> (r.NotInScope? <==> !HasPostBy(posts, id, actor.value))
      ensures !r.Rejected?
      ensures r.Success? ==> r.value.post in posts && r.value.post.id == id && r.value.post.author == actor.value
      ensures r.Success? ==> forall c :: c in r.value.comments <==> c in comments && c.post == id
      ensures Valid() && r.Success? ==> StrictlyIncreasing(r.value.comments, CommentKey)
    {
      if actor.None? then Unauthenticated
      else match OwnedPost(actor.value, id)
        case None => NotInScope
        case Some(i) => Success(Render(posts[i], comments))
    }

    /** POST /posts: a valid body becomes a new post whose author is the actor,
        whatever the body said about the author or the creation time. */
    method CreatePost(actor: Option<UserId>, input: PostInput, now: Stamp) returns (r: Response<Post>)
      requires Valid() && Known(actor)
      modifies this
      ensures Valid()
      ensures actor.None? <==> r == Unauthenticated
      ensures actor.Some? ==> (r.Success? <==> ValidatePostInput(input).Accepted?)
      ensures r.Rejected? ==> r.errors == ValidatePostInput(input).errors
      ensures !r.NotInScope?
      ensures r.Success? ==> r.value == Post(old(nextPost), input.title, input.content, now, actor.value)
      ensures r.Success? ==> posts == old(posts) + [r.value] && !HasPost(old(posts), r.value.id)
      ensures !r.Success? ==> posts == old(posts)
      ensures users == old(users) && comments == old(comments)
      ensures nextPost == old(nextPost) + (if r.Success? then 1 else 0)
      ensures nextUser == old(nextUser) && nextComment == old(nextComment)
      ensures PostsKeepOrigin(old(posts), posts)
    {
      KeptPostsKeepOrigin(posts, posts);
      KeptCommentsKeepOrigin(comments, comments);
      if actor.None? {
        return Unauthenticated;
      }
      match ValidatePostInput(input)
      case Refused(errors) =>
        r := Rejected(errors);
      case Accepted(data) =>
        var p := Post(nextPost, data.title, data.content, now, actor.value);
        InsertPost(p);
        r := Success(p);
    }

    /** PUT or PATCH /posts/{id}: the actor's own post takes the supplied title and
        content; its id, author and creation stamp stay. */
    method UpdatePost(actor: Option<UserId>, id: PostId, patch: PostPatch) returns (r: Response<Post>)
      requires Valid() && Known(actor)
      modifies this
      ensures Valid()
      ensures actor.None? <==> r == Unauthenticated
      ensures actor.Some? ==> (r.NotInScope? <==> !old(HasPostBy(posts, id, actor.value)))
      ensures actor.Some? && old(HasPostBy(posts, id, actor.value)) ==>
        (r.Success? <==> ValidatePostPatch(patch).Accepted?)
      ensures r.Rejected? ==> r.errors == ValidatePostPatch(patch).errors
      ensures r.Success? ==> actor.Some? && old(OwnedPost(actor.value, id)).Some?
      ensures r.Success? ==>
        var i := old(OwnedPost(actor.value, id)).value;
        r.value == ApplyPostChanges(old(posts)[i], ValidatePostPatch(patch).data)
        && posts == old(posts)[i := r.value]
      ensures !r.Success? ==> posts == old(posts)
      ensures users == old(users) && comments == old(comments)
      ensures nextUser == old(nextUser) && nextPost == old(nextPost) && nextComment == old(nextComment)
      ensures PostsKeepOrigin(old(posts), posts)
    {
      KeptPostsKeepOrigin(posts, posts);
      KeptCommentsKeepOrigin(comments, comments);
      if actor.None? {
        return Unauthenticated;
      }
      var found := OwnedPost(actor.value, id);
      if found.None? {
        return NotInScope;
      }
      var i := found.value;
      match ValidatePostPatch(patch)
      case Refused(errors) =>
        r := Rejected(errors);
      case Accepted(changes) =>
        var p := ApplyPostChanges(posts[i], changes);
        SavePost(i, p);
        r := Success(p);
    }

    /** DELETE /posts/{id}: the actor's own post goes, with every comment on it. */
    method DeletePost(actor: Option<UserId>, id: PostId) returns (r: Response<()>)
      requires Valid() && Known(actor)
      modifies this
      ensures Valid()
      ensures actor.None? <==> r == Unauthenticated
      ensures actor.Some? ==> (r.Success? <==> old(HasPostBy(posts, id, actor.value)))
      ensures !r.Rejected?
      ensures r.Success? ==> (posts, comments) == DeletePostCascade(old(posts), old(comments), id)
      ensures !r.Success? ==> posts == old(posts) && comments == old(comments)
      ensures users == old(users)
      ensures nextUser == old(nextUser) && nextPost == old(nextPost) && nextComment == old(nextComment)
      ensures PostsKeepOrigin(old(posts), posts) && CommentsKeepOrigin(old(comments), comments)
    {
      KeptPostsKeepOrigin(posts, posts);
      KeptCommentsKeepOrigin(comments, comments);
      if actor.None? {
        return Unauthenticated;
      }
      if OwnedPost(actor.value, id).None? {
        return NotInScope;
      }
      DeletePostLeavesNoOrphans(users.Keys, posts, comments, id);
      DeletePostKeepsOrder(posts, comments, id);
      var (ps, cs) := DeletePostCascade(posts, comments, id);
      KeptPostsKeepOrigin(posts, ps);
      KeptCommentsKeepOrigin(comments, cs);
      posts, comments := ps, cs;
      r := Success(());
    }

    /** GET /posts/{id}/comments: on the actor's own post, exactly the comments on
        that post that the actor wrote. */
    function PostCommentsList(actor: Option<UserId>, id: PostId): (r: Response<seq<Comment>>)
      reads this
      ensures actor.None? <==> r == Unauthenticated
      ensures actor.Some? ==> (r.NotInScope? <==> !HasPostBy(posts, id, actor.value))
      ensures !r.Rejected?
      ensures r.Success? ==> forall c :: c in r.value <==> c in comments && c.post == id && c.author == actor.value
      ensures Valid() && r.Success? ==> StrictlyIncreasing(r.value, CommentKey)
    {
      if actor.None? then Unauthenticated
      else if OwnedPost(actor.value, id).None? then NotInScope
      else Success(CommentsOnBy(comments, id, actor.value))
    }

    /** POST /posts/{id}/comments: on the actor's own post, a valid body becomes a
        comment on THAT post by the actor. The body's own post reference is still
        validated, against all posts, but is not what is stored. */
    method PostCommentsCreate(actor: Option<UserId>, id: PostId, input: CommentInput, now: Stamp)
      returns (r: Response<Comment>)
      requires Valid() && Known(actor)
      modifies this
      ensures Valid()
      ensures actor.None? <==> r == Unauthenticated
      ensures actor.Some? ==> (r.NotInScope? <==> !old(HasPostBy(posts, id, actor.value)))
      ensures actor.Some? && old(HasPostBy(posts, id, actor.value)) ==>
        (r.Success? <==> ValidateCommentInput(input, old(PostIds(posts))).Accepted?)
      ensures r.Rejected? ==> r.errors == ValidateCommentInput(input, old(PostIds(posts))).errors
      ensures r.Success? ==> r.value == Comment(old(nextComment), input.text, now, id, actor.value)
      ensures r.Success? ==> comments == old(comments) + [r.value]
      ensures !r.Success? ==> comments == old(comments)
      ensures users == old(users) && posts == old(posts)
      ensures nextComment == old(nextComment) + (if r.Success? then 1 else 0)
      ensures nextUser == old(nextUser) && nextPost == old(nextPost)
      ensures CommentsKeepOrigin(old(comments), comments)
    {
      KeptPostsKeepOrigin(posts, posts);
      KeptCommentsKeepOrigin(comments, comments);
      if actor.None? {
        return Unauthenticated;
      }
      if OwnedPost(actor.value, id).None? {
        return NotInScope;
      }
      match ValidateCommentInput(input, PostIds(posts))
      case Refused(errors) =>
        r := Rejected(errors);
      case Accepted(data) =>
        var c := Comment(nextComment, data.text, now, id, actor.value);
        InsertComment(c);
        r := Success(c);
    }

    // -------------------------------------------------------------------------
    // CommentViewSet

    /** GET /comments: exactly the comments the actor wrote. */
    function ListComments(actor: Option<UserId>): (r: Response<seq<Comment>>)
      reads this
      ensures actor.None? <==> r == Unauthenticated
      ensures actor.Some? ==> r.Success?
      ensures r.Success? ==> forall c :: c in r.value <==> c in comments && c.author == actor.value
      ensures Valid() && r.Success? ==> StrictlyIncreasing(r.value, CommentKey)
    {
      if actor.None? then Unauthenticated else Success(CommentsBy(comments, actor.value))
    }

    /** GET /comments/{id}: the comment, if the actor wrote it. */
    function RetrieveComment(actor: Option<UserId>, id: CommentId): (r: Response<Comment>)
      reads this
      ensures actor.None? <==> r == Unauthenticated
      ensures actor.Some? ==> (r.NotInScope? <==> !HasCommentBy(comments, id, actor.value))
      ensures !r.Rejected?
      ensures r.Success? ==> r.value in comments && r.value.id == id && r.value.author == actor.value
    {
      if actor.None? then Unauthenticated
      else match OwnedComment(actor.value, id)
        case None => NotInScope
        case Some(i) => Success(comments[i])
    }

    /** POST /comments: a valid body becomes a comment by the actor on the post the
        body names, which must exist. */
    method CreateComment(actor: Option<UserId>, input: CommentInput, now: Stamp) returns (r: Response<Comment>)
      requires Valid() && Known(actor)
      modifies this
      ensures Valid()
      ensures actor.None? <==> r == Unauthenticated
      ensures actor.Some? ==> (r.Success? <==> ValidateCommentInput(input, old(PostIds(posts))).Accepted?)
      ensures r.Rejected? ==> r.errors == ValidateCommentInput(input, old(PostIds(posts))).errors
      ensures !r.NotInScope?
      ensures r.Success? ==> r.value == Comment(old(nextComment), input.text, now, input.post, actor.value)
      ensures r.Success? ==> comments == old(comments) + [r.value]
      ensures !r.Success? ==> comments == old(comments)
      ensures users == old(users) && posts == old(posts)
      ensures nextComment == old(nextComment) + (if r.Success? then 1 else 0)
      ensures nextUser == old(nextUser) && nextPost == old(nextPost)
      ensures CommentsKeepOrigin(old(comments), comments)
    {
      KeptPostsKeepOrigin(posts, posts);
      KeptCommentsKeepOrigin(comments, comments);
      if actor.None? {
        return Unauthenticated;
      }
      match ValidateCommentInput(input, PostIds(posts))
      case Refused(errors) =>
        r := Rejected(errors);
      case Accepted(data) =>
        var c := Comment(nextComment, data.text, now, data.post, actor.value);
        InsertComment(c);
        r := Success(c);
    }

    /** PUT or PATCH /comments/{id}: the actor's own comment takes the supplied text
        and post reference (which must exist); its id, author and stamp stay. */
    method UpdateComment(actor: Option<UserId>, id: CommentId, patch: CommentPatch) returns (r: Response<Comment>)
      requires Valid() && Known(actor)
      modifies this
      ensures Valid()
      ensures actor.None? <==> r == Unauthenticated
      ensures actor.Some? ==> (r.NotInScope? <==> old(OwnedComment(actor.value, id)).None?)
      ensures actor.Some? && old(OwnedComment(actor.value, id)).Some? ==>
        (r.Success? <==> ValidateCommentPatch(patch, old(PostIds(posts))).Accepted?)
      ensures r.Rejected? ==> r.errors == ValidateCommentPatch(patch, old(PostIds(posts))).errors
      ensures r.Success? ==> actor.Some? && old(OwnedComment(actor.value, id)).Some?
      ensures r.Success? ==>
        var i := old(OwnedComment(actor.value, id)).value;
        r.value == ApplyCommentChanges(old(comments)[i], ValidateCommentPatch(patch, old(PostIds(posts))).data)
        && comments == old(comments)[i := r.value]
      ensures !r.Success? ==> comments == old(comments)
      ensures users == old(users) && posts == old(posts)
      ensures nextUser == old(nextUser) && nextPost == old(nextPost) && nextComment == old(nextComment)
      ensures CommentsKeepOrigin(old(comments), comments)
    {
      KeptPostsKeepOrigin(posts, posts);
      KeptCommentsKeepOrigin(comments, comments);
      if actor.None? {
        return Unauthenticated;
      }
      var found := OwnedComment(actor.value, id);
      if found.None? {
        return NotInScope;
      }
      var i := found.value;
      match ValidateCommentPatch(patch, PostIds(posts))
      case Refused(errors) =>
        r := Rejected(errors);
      case Accepted(changes) =>
        var c := ApplyCommentChanges(comments[i], changes);
        SaveComment(i, c);
        r := Success(c);
    }

    /** DELETE /comments/{id}: the actor's own comment goes, and nothing else. */
    method DeleteComment(actor: Option<UserId>, id: CommentId) returns (r: Response<()>)
      requires Valid() && Known(actor)
      modifies this
      ensures Valid()
      ensures actor.None? <==> r == Unauthenticated
      ensures actor.Some? ==> (r.Success? <==> old(OwnedComment(actor.value, id)).Some?)
      ensures !r.Rejected?
      ensures r.Success? ==> forall c :: c in comments <==> c in old(comments) && c.id != id
      ensures !r.Success? ==> comments == old(comments)
      ensures users == old(users) && posts == old(posts)
      ensures nextUser == old(nextUser) && nextPost == old(nextPost) && nextComment == old(nextComment)
      ensures CommentsKeepOrigin(old(comments), comments)
    {
      KeptPostsKeepOrigin(posts, posts);
      KeptCommentsKeepOrigin(comments, comments);
      if actor.None? {
        return Unauthenticated;
      }
      if OwnedComment(actor.value, id).None? {
        return NotInScope;
      }
      var keep := (c: Comment) => c.id != id;
      FilterKeepsIncreasing(comments, keep, CommentKey);
      KeptCommentsKeepOrigin(comments, Filter(comments, keep));
      comments := Filter(comments, keep);
      r := Success(());
    }

    // -------------------------------------------------------------------------
    // UserViewSet and the user cascade

    /** POST /users: valid data creates exactly one user, under the next user id, and
        answers with the username alone; invalid data creates nothing and answers with
        the field errors. */
    method Register(input: Registration) returns (r: Response<Registered>)
      requires Valid()
      modifies this
      ensures Valid()
      ensures r.Success? <==> ValidateRegistration(input, old(Usernames())).Accepted?
      ensures r.Success? || r.Rejected?
      ensures r.Rejected? ==> r.errors == ValidateRegistration(input, old(Usernames())).errors
      ensures r.Success? ==> r.value == Registered(input.username)
      ensures r.Success? ==> old(nextUser) !in old(users) && users == old(users)[old(nextUser) := input.username]
      ensures r.Success? ==> |users| == |old(users)| + 1
      ensures !r.Success? ==> users == old(users)
      ensures nextUser == old(nextUser) + (if r.Success? then 1 else 0)
      ensures posts == old(posts) && comments == old(comments)
      ensures nextPost == old(nextPost) && nextComment == old(nextComment)
    {
      match ValidateRegistration(input, Usernames())
      case Refused(errors) =>
        r := Rejected(errors);
      case Accepted(data) =>
        var id := nextUser;
        users := users[id := data.username];
        nextUser := nextUser + 1;
        r := Success(Registered(data.username));
    }

    /** Removing user `u` (an administrative action): their posts and comments go,
        and so does every comment on one of their posts. */
    method DeleteUser(u: UserId)
      requires Valid()
      modifies this
      ensures Valid()
      ensures users == old(users) - {u}
      ensures (posts, comments) == DeleteUserCascade(old(posts), old(comments), u)
      ensures nextUser == old(nextUser) && nextPost == old(nextPost) && nextComment == old(nextComment)
      ensures PostsKeepOrigin(old(posts), posts) && CommentsKeepOrigin(old(comments), comments)
    {
      DeleteUserLeavesNoOrphans(users.Keys, posts, comments, u);
      DeleteUserKeepsOrder(posts, comments, u);
      var (ps, cs) := DeleteUserCascade(posts, comments, u);
      KeptPostsKeepOrigin(posts, ps);
      KeptCommentsKeepOrigin(comments, cs);
      posts, comments := ps, cs;
      users := users - {u};
    }
  }
  // ---------------------------------------------------------------------------
  // Clients: what the contracts above let a caller conclude

  /** A list none of whose elements exists is the empty list. */
  lemma NothingListedMeansEmpty<T>(s: seq<T>)
    ensures (forall x :: x !in s) ==> s == []
  {
    if s != [] {
      assert s[0] in s;
    }
  }

  /** The users of the tests' set-up: two registered users and nothing else. */
  method SetUpUsers() returns (blog: Blog, owner: UserId, other: UserId)
    ensures fresh(blog) && blog.Valid()
    ensures blog.Known(Some(owner)) && blog.Known(Some(other)) && owner != other
    ensures blog.posts == [] && blog.comments == []
  {
    blog := new Blog();
    owner := blog.nextUser;
    var a := blog.Register(Registration("testuser", "testpassword"));
    other := blog.nextUser;
    assert "otheruser" != "testuser";
    var b := blog.Register(Registration("otheruser", "otherpassword"));
  }

  /** The set-up of the tests: two registered users; the first has one post carrying
      one comment of their own. */
  method SetUp() returns (blog: Blog, owner: UserId, other: UserId, post: Post, comment: Comment)
    ensures fresh(blog) && blog.Valid()
    ensures blog.Known(Some(owner)) && blog.Known(Some(other)) && owner != other
    ensures post == Post(post.id, "Test Post", "Test Content", 0, owner) && blog.posts == [post]
    ensures comment == Comment(comment.id, "Test Comment", 1, post.id, owner) && blog.comments == [comment]
  {
    blog, owner, other := SetUpUsers();
    var p := blog.CreatePost(Some(owner), PostInput("Test Post", "Test Content", None, None), 0);
    post := p.value;
    var c := blog.PostCommentsCreate(Some(owner), post.id, CommentInput("Test Comment", post.id, None, None), 1);
    comment := c.value;
  }

  /** Listing: the owner sees their one post with its one comment, and the comments
      action on that post lists that one comment. */
  method ListingScenario() returns (listed: Response<seq<PostView>>, comments: Response<seq<Comment>>)
    ensures listed.Success? && |listed.value| == 1
    ensures listed.value[0].post.title == "Test Post"
    ensures |listed.value[0].comments| == 1 && listed.value[0].comments[0].text == "Test Comment"
    ensures comments.Success? && |comments.value| == 1 && comments.value[0].text == "Test Comment"
  {
    var blog, owner, other, post, comment := SetUp();
    listed := blog.ListPosts(Some(owner));
    var view := PostView(post, [comment]);
    var v :| v in listed.value && v.post == post;
    OnlyElement(v.comments, comment, CommentKey);
    OnlyElement(listed.value, view, ViewKey);
    comments := blog.PostCommentsList(Some(owner), post.id);
    OnlyElement(comments.value, comment, CommentKey);
  }

  /** Invalid data on the comments action of the owner's post: the answer is the error
      map, with the text's message under "text", and no comment is stored. */
  method InvalidCommentScenario() returns (r: Response<Comment>, count: nat)
    ensures r == Rejected(map["text" := TextEmpty])
    ensures count == 1
  {
    var blog, owner, other, post, comment := SetUp();
    r := blog.PostCommentsCreate(Some(owner), post.id, CommentInput("", post.id, None, None), 2);
    count := |blog.comments|;
  }

  /** User isolation: the other user lists no posts, and the owner's post is out of
      their scope, both for its comments and for an update. */
  method IsolationScenario() returns (listed: Response<seq<PostView>>, comments: Response<seq<Comment>>, updated: Response<Post>)
    ensures listed == Success([])
    ensures comments == NotInScope
    ensures updated == NotInScope
  {
    var blog, owner, other, post, comment := SetUp();
    listed := blog.ListPosts(Some(other));
    NothingListedMeansEmpty(listed.value);
    comments := blog.PostCommentsList(Some(other), post.id);
    updated := blog.UpdatePost(Some(other), post.id, PostPatch(Some("Updated Post"), None, None, None));
  }

  /** Deleting the post: the owner's post list is empty afterwards, and the cascade has
      taken their comment on it out of their comment collection too. */
  method DeleteCascadeScenario() returns (before: Response<seq<Comment>>, posts: Response<seq<PostView>>, after: Response<seq<Comment>>)
    ensures before.Success? && |before.value| == 1 && before.value[0].text == "Test Comment"
    ensures posts == Success([])
    ensures after == Success([])
  {
    var blog, owner, other, post, comment := SetUp();
    before := blog.ListComments(Some(owner));
    OnlyElement(before.value, comment, CommentKey);
    var d := blog.DeletePost(Some(owner), post.id);
    posts := blog.ListPosts(Some(owner));
    NothingListedMeansEmpty(posts.value);
    after := blog.ListComments(Some(owner));
    NothingListedMeansEmpty(after.value);
  }
}
